=== FILE: README.md ===
# ulocator's `ServiceLocator`, modelled in Dafny

`ServiceLocator` is a header-only C++ service registry. Its map goes from an
interface type (`std::type_index`) to a `TypedInterfaceCreator` slot. Each slot
holds a cached `shared_ptr` instance, a deferred factory, both, or neither
(after a bind to a null pointer or to an empty factory function).

- `bind<T>()->to(...)` fills a slot. It has three finalizers: a factory, an
  existing pointer, or a default-constructed object.
- The first bind of a type wins. Every later bind of that type is ignored.
- `resolve<T>()` hands out the cached instance. If there is none, it invokes
  the factory (passing the registry itself) and caches what the factory
  returns.
- `canResolve<T>()` asks whether a slot exists.
- `interfaces().add<M>()` runs a module's `load()`, whose binds land in the
  same registry.

How the model is built:

- The registry is an immutable `Registry` value, and every operation is a
  pure function.
- Interface types are an abstract key type `K`. Objects are `Instance`
  values, and a null pointer is `None`.
- A factory is described by the keys it resolves (in order) and by whether
  it ends up returning an object or null.
- Two observation fields are kept beside the slot map:
  - `made` counts the objects the registry constructs (through `to<TImpl>()`
    or a factory), which gives each of those its own identity. An object
    handed in through `to(ptr)` is whatever the caller passes and may equal
    one of them.
  - `calls` records every factory invocation in order.
- A resolution that would recurse forever returns `Diverges`. It recurses
  forever when a factory, directly or through other factories, resolves a
  key whose factory is still running.
- A resolution from which an exception escapes returns `Throws`, with the
  registry as the nested calls that finished left it. The one exception the
  registry itself raises comes from resolving a key whose slot has neither
  an instance nor a factory: a key bound to a null pointer or to an empty
  `std::function`. It escapes every enclosing factory, module and `add` chain, and
  no slot along the way is filled.
- `Loader` models modules: a module is a list of steps (bind-and-finalize,
  or resolve), and `add` runs modules in call order. The registry handle
  that `add` gives a module is private to `Interface`, so `load()` can only
  bind through it. A resolve step stands for a resolve through a handle on
  the same registry that the module obtains some other way, such as a
  global.
- `Properties` states the library's promises over whole call sequences.
- `Scenarios` replays the library's test and its example program on a
  concrete key type.

The comment on `TypedInterfaceCreator`
(`include/ulocator/servicelocator.h:50-55`) describes a slot as holding the
created object, or a creator that makes that object when someone resolves
the key. So a slot is meant to hold an instance or a factory, and a factory
is meant to run at most once per interface, its object then being held. The
code departs from that intent in two places, and the model follows the code
in both.

- A slot can hold neither an instance nor a factory. The code's `to(ptr)` accepts a null `ptr`, and its `to(createFunc)` accepts an
  empty function; each creates exactly such a slot. That key then reports
  `canResolve` true, but resolving it calls an empty `std::function`, which
  throws (`Properties.NullInstanceBindingThrows`,
  `Properties.EmptyFactoryIsNullBinding`).
- A factory can run more than once for the same interface. The code decides whether to call the factory by testing the
  cached pointer for null (`include/ulocator/servicelocator.h:210-212`). So
  a factory that returned null is called again by the next resolve
  (`Properties.NullFromFactoryIsRetried`). At most one invocation holds
  only once the factory has produced an object
  (`Properties.DeferredInstanceIsCached`).

## Model

| member | source | states |
|---|---|---|
| Locator.CanResolve | include/ulocator/servicelocator.h:223-228 | `canResolve<T>()` is true exactly when the key has a slot, whether it holds an instance, a factory, or neither; `Properties.ResolveKeepsCanResolve` and `Properties.LoadedBindingsAreVisible` are its partners |
| Locator.Bind | include/ulocator/servicelocator.h:195-199 | `bind<T>()` only makes a builder remembering the key; the registry is not touched, so an unfinalized bind leaves no trace |
| Locator.Create | include/ulocator/servicelocator.h:188-193 | a new registry has no binding for any key, no recorded factory call and no loader yet |
| Locator.Install | include/ulocator/servicelocator.h:80-87 | first bind wins: a bound key leaves the registry unchanged; an unbound key gets exactly the new slot and every other slot is kept |
| Locator.ToFactory | include/ulocator/servicelocator.h:75-88 | `to(createFunc)` makes the key resolvable and stores the function, empty or not, with no instance; it invokes nothing and only extends the registry; a bound key is left alone |
| Locator.ToInstance | include/ulocator/servicelocator.h:90-103 | `to(ptr)` makes the key resolvable and stores `ptr` with no factory; a bound key is left alone |
| Locator.ToDefault | include/ulocator/servicelocator.h:105-118 | `to<TImpl>()` constructs one fresh object at bind time and stores it as the instance, and only when the key is unbound |
| Locator.ResolveIn | include/ulocator/servicelocator.h:202-221 | an unbound key gives null and changes nothing; a cached instance is returned as is; a slot bound to null throws and changes nothing; otherwise the factory is invoked once and its result, null or not, is what the slot then caches, while an exception escaping the factory leaves the slot empty; the result is non-null exactly when the binding can produce an object; re-entering a running factory diverges; only empty slots whose factory ran can change |
| Locator.Store | include/ulocator/servicelocator.h:212 | the factory's result becomes the slot's instance; the slot keeps its factory and every other slot, the keys, the object count and the call record are unchanged |
| Locator.Invoke | include/ulocator/servicelocator.h:210-213 | a factory handed the registry returns an object exactly when it succeeds; each dependency it sees is non-null exactly when that dependency's binding can produce an object, including a deferred factory that has not run yet; a dependency already cached is passed through unchanged; a factory with any dependency bound to null never returns, because the nested resolve's exception escapes it |
| Locator.ResolveAll | examples/main.cpp:85-87 | a factory's nested resolves, in order: one result per dependency, non-null exactly when the dependency's binding can produce an object; cached gives the cached object, every object handed out is what the registry then caches, and a list holding any key bound to null never finishes, because that key's resolve throws |
| Locator.Resolve | include/ulocator/servicelocator.h:202-221 | `resolve<T>()` from outside any factory: the same guarantees as `ResolveIn`, stated with `CanResolve` |
| Locator.Interfaces | include/ulocator/servicelocator.h:180-186 | `interfaces()` makes the loader and touches neither the bindings, the object count nor the factory calls |
| Loader.Finalize | include/ulocator/servicelocator.h:137-141 | a module's `bind<T>()->to(...)` makes the key resolvable, keeps a bound key unchanged, leaves other keys alone and only extends the registry |
| Loader.Perform | include/ulocator/servicelocator.h:135 | one action of `load()`: a bind always finishes and makes its key resolvable; every action only extends the registry |
| Loader.Load | include/ulocator/servicelocator.h:162-170 | `add<M>()` runs the module's `load()` against the registry: one observation per step, the registry only grows, and an exception ends the module |
| Loader.Add | include/ulocator/servicelocator.h:162-170 | chained `add` calls give one list of observations per module, of that module's length; the registry only grows, and an exception ends the chain |
| Properties.FreshRegistryIsEmpty | tests/ulocator_test.cpp:46-57 | a new registry resolves no key and hands out null without changing |
| Properties.FirstBindWins | include/ulocator/servicelocator.h:80-87 | every finalizer on a bound key returns the registry unchanged; on an unbound key it adds exactly that key and records no factory call |
| Properties.FirstBindInModuleWins | include/ulocator/servicelocator.h:80-117 | within a module, the first bind of a key decides its slot after loading, whatever later binds and resolves of that key do |
| Properties.LoadInCallOrder | include/ulocator/servicelocator.h:162-170 | loading a concatenation of steps is loading the first part and then the second part against the registry the first part left |
| Properties.AddInCallOrder | include/ulocator/servicelocator.h:162-170 | chained `add` calls run modules in call order: a concatenated chain is the first chain followed by the second |
| Properties.AddRunsConcatenatedModules | include/ulocator/servicelocator.h:162-170 | a chain of `add` calls does exactly what one module made of all their steps does: same outcome, same registry after, and the observations laid end to end |
| Properties.AddSingle | include/ulocator/servicelocator.h:162-170 | adding one module is exactly loading that module |
| Properties.LoadSingle | include/ulocator/servicelocator.h:165-167 | a module of one step observes exactly what that step returns and leaves the registry that step leaves |
| Properties.LoadedBindingsAreVisible | include/ulocator/servicelocator.h:165-167 | every key a module binds is resolvable once the module has loaded, so every later module sees it |
| Properties.CachedInstanceIsServed | include/ulocator/servicelocator.h:210-214 | once an instance is cached, every later resolve of its key inside a module returns it, its slot never changes and its factory is never called |
| Properties.CachedInstanceSurvivesStep | include/ulocator/servicelocator.h:210-214 | one bind or resolve keeps a cached instance's slot, calls no factory for its key, and a resolve of that key returns the cached instance |
| Properties.CachedInstanceIsServedSince | include/ulocator/servicelocator.h:210-214 | the same, measured from an earlier point of the factory-call record: that earlier record is kept and the key is still never called |
| Properties.InstanceBindingIsServed | include/ulocator/servicelocator.h:90-103 | after `to(ptr)` with a non-null `ptr`, every later resolve returns exactly `ptr` and no factory is invoked for it |
| Properties.NullInstanceBindingThrows | include/ulocator/servicelocator.h:90-103 | `to(nullptr)` makes a slot with neither instance nor factory: the key is resolvable, but resolving it throws and changes nothing |
| Properties.EmptyFactoryIsNullBinding | include/ulocator/servicelocator.h:75-88 | `to(createFunc)` with an empty function leaves exactly the registry `to(nullptr)` leaves, so the key is resolvable and resolving it throws and changes nothing |
| Properties.DefaultBindingIsEager | include/ulocator/servicelocator.h:105-118 | `to<TImpl>()` constructs at bind time; resolving returns that object and changes nothing |
| Properties.DeferredFactoryRunsOnce | include/ulocator/servicelocator.h:210-213 | after `to(createFunc)`, the first resolve calls the factory exactly once, caches its result and yields an object exactly when the factory does |
| Properties.DeferredInstanceIsCached | include/ulocator/servicelocator.h:210-214 | once the factory has produced an object, every later resolve returns that same object and the factory is never called again |
| Properties.DeferredInstanceIsCachedAcrossAdd | include/ulocator/servicelocator.h:210-214 | the same across a chain of `add` calls: once the factory has produced an object, no later module calls it again and the slot keeps that object |
| Properties.NullFromFactoryIsRetried | include/ulocator/servicelocator.h:210-213 | a factory that returned null leaves the slot empty, and the next resolve calls it again |
| Properties.ResolveKeepsCanResolve | include/ulocator/servicelocator.h:223-228 | resolving never changes which keys `canResolve` reports |
| Properties.ResolveOnlyFillsEmptySlots | include/ulocator/servicelocator.h:210-214 | a resolve never replaces a factory or a cached instance, and a slot changes only when its own factory was called |
| Properties.InterfacesIsMemoised | include/ulocator/servicelocator.h:180-186 | `interfaces()` is idempotent, is the identity once the loader exists, and never changes `canResolve` |
| Properties.AddOnlyGrows | include/ulocator/servicelocator.h:162-170 | loading modules never removes a key, replaces a factory or replaces a cached instance |
| Properties.FactorySeesCachedDependency | include/ulocator/servicelocator.h:211 | a factory handed the registry receives, for a dependency already cached, exactly that cached object |
| Properties.FactorySeesBoundDependency | include/ulocator/servicelocator.h:211 | a factory handed the registry gets an object for a dependency exactly when that dependency's binding can produce one, in particular when it is bound to a deferred factory that succeeds and has not run yet |
| Properties.NullDependencyAbandonsFactory | include/ulocator/servicelocator.h:211-212 | when any of a factory's dependencies is bound to null, the resolve never returns an object and, if it throws, the factory's slot stays empty; when it is the first dependency, the exception escapes at once, no object is made and only the factory's own call is recorded |
| Properties.SelfDependencyNeverReturns | include/ulocator/servicelocator.h:210-212 | a factory that resolves its own key never returns normally, and diverges when that key is its first dependency |
| Properties.PendingDependencyNeverReturns | include/ulocator/servicelocator.h:210-212 | a dependency list containing a key whose factory is running never returns normally, and diverges when every earlier dependency returns |
| Properties.AcyclicResolveFinishes | include/ulocator/servicelocator.h:202-221 | when factory dependencies strictly decrease a rank, every resolve finishes: it returns or throws, but never diverges |
| Properties.RankedResolveFinishes | include/ulocator/servicelocator.h:202-221 | under such a rank, a nested resolve finishes when its key ranks below every running factory |
| Properties.RankedInvokeFinishes | include/ulocator/servicelocator.h:211 | under such a rank, invoking a factory whose dependencies rank below every running factory finishes |
| Properties.RankedAllFinishes | examples/main.cpp:85-87 | under such a rank, a factory's nested resolves all finish |
| Scenarios.EagerFooScenario | tests/ulocator_test.cpp:44-66 | the test: nothing resolves in a new registry, and after `bind<IFoo>()->to<Foo>()` `IFoo` resolves to a non-null object |
| Scenarios.FooModuleBindsFoo | examples/main.cpp:71-79 | loading the `IFoo` module on a new registry binds `IFoo` to its factory and nothing else |
| Scenarios.BarModuleBindsBar | examples/main.cpp:81-89 | loading the `IBar` module adds `IBar`'s factory and invokes nothing |
| Scenarios.FooResolves | examples/main.cpp:96-98 | resolving `IFoo` makes one `ImplFoo`, caches it and records one factory call |
| Scenarios.BarResolves | examples/main.cpp:84-87 | resolving `IBar` with `IFoo` cached builds `ImplBar` around that very foo |
| Scenarios.BarResolvesFoo | examples/main.cpp:84-87 | resolving `IBar` first makes `IBar`'s factory resolve `IFoo`, so both factories run, `IBar`'s first |
| Scenarios.BarFactoryResolvesFoo | examples/main.cpp:85-87 | `IBar`'s factory, handed the registry, resolves `IFoo` and builds `ImplBar` on it |
| Scenarios.ModuleScenario | examples/main.cpp:91-120 | the example program: the bar handed out holds the very foo the registry cached, and each factory ran once |
| Scenarios.ExampleBinds | examples/main.cpp:94-108 | binding `IFoo` directly and then adding the `IBar` module leaves both keys bound to their factories, with nothing invoked |
| Scenarios.ExampleResolves | examples/main.cpp:110-120 | with both bound, resolving `IFoo` gives the foo and then resolving `IBar` gives the bar, with each factory called once, `IFoo`'s first |
| Scenarios.ExampleResolvesFoo | examples/main.cpp:111 | the example's first resolve makes and caches exactly one foo and leaves `IBar` untouched |
| Scenarios.ExampleResolvesBar | examples/main.cpp:117 | the example's second resolve builds the bar on the cached foo, and only `IBar`'s factory runs |
| Scenarios.NullFooAbandonsBar | include/ulocator/servicelocator.h:211-212 | `IFoo` bound by `to(nullptr)` and `IBar` to a factory needing `IFoo`: resolving `IBar` throws, no bar or other object is made and `IBar` stays empty |
| Scenarios.SecondModuleLoads | examples/main.cpp:81-89 | a module that binds `IBar`, resolves `IFoo` and then resolves `IBar` observes nothing, then a foo, then a bar built on that same foo |
| Scenarios.FetchFooThenBarLoads | examples/main.cpp:110-120 | resolving `IFoo` and then `IBar` from a module, with both bound and nothing made, observes the foo and then the bar built on it |
| Scenarios.FetchBarLoads | examples/main.cpp:117 | a module that only resolves `IBar` observes the bar |
| Scenarios.ChainedModulesScenario | examples/main.cpp:71-108 | a chain of `add` calls, with the Foo module first and then the Bar module extended with two resolves through an outside handle: the second module's resolve of `IFoo` goes through the binding the first module made and gets a foo, and its resolve of `IBar` then gets a bar built on that foo |

## Left out

- Ownership is not modelled: the `shared_ptr` and `weak_ptr` back-reference (`m_this`), reference counts and teardown. The registry is a value that each operation passes on.
- The `dynamic_cast` failure branch of `resolve` is not modelled. `typeid` ignores top-level `const` and `volatile`, so `bind<const IFoo>()` stores a `TypedInterfaceCreator<const IFoo>` under `IFoo`'s key. A later `resolve<IFoo>()` then fails the cast, prints a diagnostic and returns null, while `canResolve<IFoo>()` is true. The model's keys stand for exact types, so an interface bound and resolved under different cv-qualifications is left out.
- The `std::cerr` diagnostics on a repeated bind or a failed cast are not modelled: they are console output only.
- Locator.Invoke: a factory's own exceptions are not modelled. A factory either returns an object or returns null; the only exception in the model is the one from resolving a key bound to null. The exception's type is not recorded, and nothing catches it.
- Locator.ResolveIn: the unbounded recursion of a cyclic factory graph (which ends in a stack overflow) is modelled as `Diverges`.
- Locator.Invoke: a factory is modelled as a list of keys it resolves, in order, followed by a construction. Arbitrary user code in a factory, such as a factory that binds new keys or picks its dependencies based on earlier results, is not modelled.
- Loader.Load: a module's `load()` is modelled as a fixed list of binds and resolves. Its other code is not modelled.
- What the constructed objects do is not modelled: `sum`, `doWork`, `tellFoo` and the example program's console output.
- Concurrency is not modelled: the library is single-threaded.

=== FILE: loader.dfy ===
/** Interface modules and the loader `InterfaceClause`.

    An interface module's `load()` is modelled as the list of things it does
    to the registry it is handed: finalized binds and resolves. Loading runs
    the steps in order against one registry; `add` runs modules in call
    order against the same registry.
 */
module Loader {
  import opened Locator

  /** The three `to` finalizers; `Deferred(None)` is an empty `createFunc`. */
  datatype Binding<K> = Existing(ptr: Option<Instance>) | Deferred(f: Option<Factory<K>>) | Default(impl: nat)

  /** One action of `load()`: `bind<T>()->to(...)`, or `resolve<T>()`. The
      handle `add` gives a module is private to `Interface`, so `load()` can
      only bind through it; a resolve goes through a handle on the same
      registry that the module obtains by other means (a global, say). */
  datatype Step<K> = BindTo(key: K, how: Binding<K>) | Fetch(key: K)

  /** `Interface::bind<T>()` followed by the chosen finalizer. */
  function Finalize<K(==,!new)>(s: Registry<K>, k: K, how: Binding<K>): (r: Registry<K>)
    ensures CanResolve(r, k) && Extends(s, r)
    ensures k in s.slots ==> r == s
    ensures forall j :: j != k ==> (j in r.slots <==> j in s.slots)
  {
    var c := Bind(s, k);
    match how
    case Existing(p) => ToInstance(c, s, p)
    case Deferred(f) => ToFactory(c, s, f)
    case Default(impl) => ToDefault(c, s, impl)
  }

  /** One step; a bind observes nothing, a resolve observes its result. */
  function Perform<K(==,!new)>(s: Registry<K>, step: Step<K>): (o: Outcome<K, Option<Instance>>)
    ensures !o.Diverges? ==> Extends(s, o.after)
    ensures step.BindTo? ==> o.Done? && CanResolve(o.after, step.key)
  {
    match step
    case BindTo(k, how) => Done(None, Finalize(s, k, how))
    case Fetch(k) => Resolve(s, k)
  }

  /** A module's `load()`: its steps in order, one observation per step.
      An exception from a step escapes `load()` and ends it. */
  function Load<K(==,!new)>(s: Registry<K>, m: seq<Step<K>>): (o: Outcome<K, seq<Option<Instance>>>)
    ensures !o.Diverges? ==> Extends(s, o.after)
    ensures o.Done? ==> |o.value| == |m|
    decreases |m|
  {
    if |m| == 0 then Done([], s)
    else
      match Perform(s, m[0])
      case Diverges => Diverges
      case Throws(t) => Throws(t)
      case Done(v, t) =>
        match Load(t, m[1..])
        case Diverges => Diverges
        case Throws(u) =>
          ExtendsTransitive(s, t, u);
          Throws(u)
        case Done(vs, u) =>
          ExtendsTransitive(s, t, u);
          Done([v] + vs, u)
  }

  /** Chained `interfaces().add<M1>().add<M2>()...`: each module is loaded
      against the registry the previous one left, in call order. An
      exception escaping a module's `load()` escapes the whole chain. */
  function Add<K(==,!new)>(s: Registry<K>, modules: seq<seq<Step<K>>>): (o: Outcome<K, seq<seq<Option<Instance>>>>)
    ensures !o.Diverges? ==> Extends(s, o.after)
    ensures o.Done? ==> |o.value| == |modules|
    ensures o.Done? ==> forall i :: 0 <= i < |modules| ==> |o.value[i]| == |modules[i]|
    decreases |modules|
  {
    if |modules| == 0 then Done([], s)
    else
      match Load(s, modules[0])
      case Diverges => Diverges
      case Throws(t) => Throws(t)
      case Done(v, t) =>
        match Add(t, modules[1..])
        case Diverges => Diverges
        case Throws(u) =>
          ExtendsTransitive(s, t, u);
          Throws(u)
        case Done(vs, u) =>
          ExtendsTransitive(s, t, u);
          Done([v] + vs, u)
  }
}

=== FILE: locator.dfy ===
/** A model of the type-keyed service registry `ServiceLocator`.

    The registry maps an interface key to a slot. A slot may hold a cached
    instance and may hold a deferred factory. Keys are an abstract type with
    equality (the source uses `std::type_index`); instances are opaque values,
    and a null `shared_ptr` is `None`.

    Every operation is a pure function from the registry before to the
    registry after. Two observation fields are kept beside the map: `made`
    counts the objects the registry has constructed (it gives every new
    object its own identity) and `calls` records, in order, the key of every
    factory invocation, so that "invoked at most once" can be stated.
 */
module Locator {

  datatype Option<+T> = None | Some(value: T)

  /** An object handed out by the registry. `serial` tells apart the objects
      made by distinct constructions; `deps` holds, in order, what the
      constructing factory resolved from the registry (empty for an object
      made without a factory). */
  datatype Instance = Instance(impl: nat, serial: nat, deps: seq<Option<Instance>>)

  /** A deferred factory `(registry) -> shared_ptr<TImpl>`: it resolves the
      keys `deps` from the registry it is handed, in order, and then either
      constructs an `impl` object from what it got or, when `succeeds` is
      false, returns null. */
  datatype Factory<K> = Factory(impl: nat, deps: seq<K>, succeeds: bool)

  /** `TypedInterfaceCreator`: the cached instance `ptr` and the `creator`. */
  datatype Slot<K> = Slot(ptr: Option<Instance>, creator: Option<Factory<K>>)

  datatype Registry<K(==,!new)> = Registry(
    slots: map<K, Slot<K>>,
    made: nat,
    calls: seq<K>,
    loader: bool)

  /** The short-lived builder returned by `bind<T>()`: it only remembers the
      key it will finalize. */
  datatype ToClause<K> = ToClause(key: K)

  /** The result of a resolution. `Throws` is an exception escaping the
      call, with the registry as the nested calls that did finish left it.
      `Diverges` stands for the unbounded recursion of the source when a
      factory, directly or through other factories, resolves its own key
      again. */
  datatype Outcome<K(==,!new), V> = Done(value: V, after: Registry<K>) | Throws(after: Registry<K>) | Diverges

  /** "t differs from s only by new bindings, new objects, new factory
      calls and instances filled into empty slots": no key is removed, no
      factory replaced, no cached instance replaced, and no factory of a
      slot that `s` already had filled (or had no factory for) was called. */
  predicate Extends<K(==,!new)>(s: Registry<K>, t: Registry<K>)
  {
    && s.slots.Keys <= t.slots.Keys
    && (forall j :: j in s.slots ==> t.slots[j].creator == s.slots[j].creator)
    && (forall j :: j in s.slots && s.slots[j].ptr.Some? ==> t.slots[j].ptr == s.slots[j].ptr)
    && (forall j :: j in s.slots && t.slots[j] != s.slots[j] ==> WasPending(s, j))
    && s.calls <= t.calls
    && (forall i :: |s.calls| <= i < |t.calls| && t.calls[i] in s.slots ==> WasPending(s, t.calls[i]))
    && s.made <= t.made
  }

  /** What a resolution may do: exactly the keys of `s`, and a slot changes
      only when its own factory was invoked on the way. */
  predicate OnlyMaterialises<K(==,!new)>(s: Registry<K>, t: Registry<K>)
  {
    && Extends(s, t)
    && t.slots.Keys == s.slots.Keys
    && t.loader == s.loader
    && (forall j :: j in s.slots && t.slots[j] != s.slots[j] ==> j in t.calls[|s.calls|..])
    && (forall i :: |s.calls| <= i < |t.calls| ==> WasPending(s, t.calls[i]))
    && (forall j :: j in s.slots ==> (Produces(t, j) <==> Produces(s, j)))
  }

  /** The slot of `k` is bound, empty, and has a factory to invoke. */
  predicate WasPending<K(==,!new)>(s: Registry<K>, k: K)
  {
    k in s.slots && s.slots[k].ptr.None? && s.slots[k].creator.Some?
  }

  /** Resolving `k` yields an object: it is cached, or the slot's factory
      constructs one. */
  predicate Produces<K(==,!new)>(s: Registry<K>, k: K)
  {
    k in s.slots && (s.slots[k].ptr.Some? || (s.slots[k].creator.Some? && s.slots[k].creator.value.succeeds))
  }

  /** `k` is bound to a slot with neither an instance nor a creator (by
      `to(nullptr)` or an empty `createFunc`): resolving it throws. */
  predicate BoundToNull<K(==,!new)>(s: Registry<K>, k: K)
  {
    k in s.slots && s.slots[k].ptr.None? && s.slots[k].creator.None?
  }

  /** The slots of `pending` are untouched and none of their factories ran. */
  predicate Untouched<K(==,!new)>(s: Registry<K>, t: Registry<K>, pending: set<K>)
    requires pending <= s.slots.Keys <= t.slots.Keys
    requires s.calls <= t.calls
  {
    forall j :: j in pending ==> t.slots[j] == s.slots[j] && j !in t.calls[|s.calls|..]
  }

  /** `ServiceLocator::create`: a registry with no bindings. */
  function Create<K(==,!new)>(): (r: Registry<K>)
    ensures forall k :: !CanResolve(r, k)
    ensures r.calls == [] && !r.loader
  {
    Registry(map[], 0, [], false)
  }

  /** `canResolve<T>()`: is a slot present for the key, materialised or not. */
  function CanResolve<K(==,!new)>(s: Registry<K>, k: K): (b: bool)
    ensures b <==> k in s.slots.Keys
  {
    k in s.slots
  }

  /** `bind<T>()`: a builder for the key; the registry is not touched (the
      function does not even return one). */
  function Bind<K(==,!new)>(s: Registry<K>, k: K): (c: ToClause<K>)
    ensures c.key == k
  {
    ToClause(k)
  }

  /** The shared "first bind wins" step of the three finalizers: store the
      slot only when the key is absent. */
  function Install<K(==,!new)>(s: Registry<K>, k: K, slot: Slot<K>): (r: Registry<K>)
    ensures CanResolve(r, k)
    ensures k in s.slots ==> r == s
    ensures k !in s.slots ==> r.slots[k] == slot
    ensures forall j :: j != k ==> (j in r.slots <==> j in s.slots)
    ensures forall j :: j in s.slots ==> r.slots[j] == s.slots[j]
    ensures r.made == s.made && r.calls == s.calls && r.loader == s.loader
  {
    if k in s.slots then s else s.(slots := s.slots[k := slot])
  }

  /** `to(createFunc)`: store the function as the slot's creator; nothing is
      invoked. An empty `std::function` is `None`: it is accepted like any
      other and leaves a slot with neither an instance nor a creator. */
  function ToFactory<K(==,!new)>(c: ToClause<K>, s: Registry<K>, f: Option<Factory<K>>): (r: Registry<K>)
    ensures CanResolve(r, c.key)
    ensures c.key in s.slots ==> r == s
    ensures c.key !in s.slots ==> r.slots[c.key] == Slot(None, f)
    ensures Extends(s, r) && r.calls == s.calls && r.made == s.made
    ensures forall j :: j != c.key ==> (j in r.slots <==> j in s.slots)
  {
    Install(s, c.key, Slot(None, f))
  }

  /** `to(ptr)`: store an existing (possibly null) instance; no factory. */
  function ToInstance<K(==,!new)>(c: ToClause<K>, s: Registry<K>, ptr: Option<Instance>): (r: Registry<K>)
    ensures CanResolve(r, c.key)
    ensures c.key in s.slots ==> r == s
    ensures c.key !in s.slots ==> r.slots[c.key] == Slot(ptr, None)
    ensures Extends(s, r) && r.calls == s.calls && r.made == s.made
    ensures forall j :: j != c.key ==> (j in r.slots <==> j in s.slots)
  {
    Install(s, c.key, Slot(ptr, None))
  }

  /** `to<TImpl>()`: construct an `impl` object right away and store it as
      the slot's instance; the object is made only when the key is absent. */
  function ToDefault<K(==,!new)>(c: ToClause<K>, s: Registry<K>, impl: nat): (r: Registry<K>)
    ensures CanResolve(r, c.key)
    ensures c.key in s.slots ==> r == s
    ensures c.key !in s.slots ==>
              && r.slots[c.key] == Slot(Some(Instance(impl, s.made, [])), None)
              && r.made == s.made + 1
    ensures Extends(s, r) && r.calls == s.calls
    ensures forall j :: j != c.key ==> (j in r.slots <==> j in s.slots)
  {
    if c.key in s.slots then s
    else
      var obj := Instance(impl, s.made, []);
      Install(s.(made := s.made + 1), c.key, Slot(Some(obj), None))
  }

  lemma ExtendsTransitive<K(!new)>(s: Registry<K>, t: Registry<K>, u: Registry<K>)
    requires Extends(s, t) && Extends(t, u)
    ensures Extends(s, u)
  {
  }

  lemma OnlyMaterialisesTransitive<K(!new)>(s: Registry<K>, t: Registry<K>, u: Registry<K>)
    requires OnlyMaterialises(s, t) && OnlyMaterialises(t, u)
    ensures OnlyMaterialises(s, u)
  {
    CallsSplit(t.calls, u.calls, |s.calls|);
    CallsSplit(s.calls, t.calls, |s.calls|);
  }

  /** The calls recorded since `n` in a longer record are those of the
      shorter record since `n`, then what the longer one added. */
  lemma CallsSplit<K>(a: seq<K>, c: seq<K>, n: nat)
    requires n <= |a| && a <= c
    ensures c[n..] == a[n..] + c[|a|..]
  {
  }

  lemma UntouchedTransitive<K(!new)>(s: Registry<K>, t: Registry<K>, u: Registry<K>, pending: set<K>)
    requires pending <= s.slots.Keys
    requires OnlyMaterialises(s, t) && OnlyMaterialises(t, u)
    requires Untouched(s, t, pending) && Untouched(t, u, pending)
    ensures Untouched(s, u, pending)
  {
    CallsSplit(t.calls, u.calls, |s.calls|);
  }

  lemma ShrinkMeasure<K(!new)>(keys: set<K>, pending: set<K>, k: K)
    requires k in keys && k !in pending
    ensures |keys - (pending + {k})| < |keys - pending|
  {
    assert keys - pending == (keys - (pending + {k})) + {k};
  }

  /** `resolve<T>()`, run while the factories of `pending` are in progress
      on the call stack. An absent key succeeds null. A cached instance is
      returned as is. Otherwise the slot's factory is invoked with the same
      registry and its result, null or not, is stored in the slot; when an
      exception escapes the factory, nothing is stored. A slot with no
      factory (bound to a null instance) makes the source call an empty
      `std::function`, which throws. */
  function ResolveIn<K(==,!new)>(s: Registry<K>, k: K, pending: set<K>): (o: Outcome<K, Option<Instance>>)
    requires pending <= s.slots.Keys
    ensures !o.Diverges? ==> OnlyMaterialises(s, o.after) && Untouched(s, o.after, pending)
    ensures o.Done? ==> (o.value.Some? <==> Produces(s, k))
    ensures o.Done? && k in s.slots ==> o.after.slots[k].ptr == o.value
    ensures o.Throws? && k in s.slots ==> o.after.slots[k] == s.slots[k]
    ensures k !in s.slots ==> o == Done(None, s)
    ensures k in s.slots && s.slots[k].ptr.Some? ==> o == Done(s.slots[k].ptr, s)
    ensures k in s.slots && s.slots[k].ptr.None? && s.slots[k].creator.None? ==> o == Throws(s)
    ensures WasPending(s, k) && k in pending ==> o.Diverges?
    ensures !o.Diverges? && WasPending(s, k) ==>
              && |o.after.calls| > |s.calls|
              && o.after.calls[|s.calls|] == k
              && k !in o.after.calls[|s.calls| + 1..]
    decreases |s.slots.Keys - pending|, 0, 0
  {
    if k !in s.slots then Done(None, s)
    else
      var slot := s.slots[k];
      if slot.ptr.Some? then Done(slot.ptr, s)
      else
        match slot.creator
        case None => Throws(s)
        case Some(f) =>
          if k in pending then Diverges
          else
            ShrinkMeasure(s.slots.Keys, pending, k);
            match Invoke(s.(calls := s.calls + [k]), f, pending + {k})
            case Diverges => Diverges
            case Throws(t) =>
              FactoryCallStep(s, k, pending, t);
              Throws(t)
            case Done(p, t) =>
              StoreStep(s, k, pending, t, p);
              Done(p, Store(t, k, p))
  }

  /** `typedCreator->ptr = ptr`: the factory's result goes into the slot,
      which keeps its factory; nothing else changes. */
  function Store<K(==,!new)>(t: Registry<K>, k: K, p: Option<Instance>): (u: Registry<K>)
    requires k in t.slots
    ensures u.slots.Keys == t.slots.Keys
    ensures u.slots[k] == Slot(p, t.slots[k].creator)
    ensures forall j :: j in t.slots && j != k ==> u.slots[j] == t.slots[j]
    ensures u.made == t.made && u.calls == t.calls && u.loader == t.loader
  {
    t.(slots := t.slots[k := t.slots[k].(ptr := p)])
  }

  /** Storing the result of `k`'s own factory call keeps a resolution
      within what `OnlyMaterialises` allows. */
  lemma StoreStep<K(!new)>(s: Registry<K>, k: K, pending: set<K>, t: Registry<K>, p: Option<Instance>)
    requires pending <= s.slots.Keys && k !in pending && WasPending(s, k)
    requires OnlyMaterialises(s.(calls := s.calls + [k]), t)
    requires Untouched(s.(calls := s.calls + [k]), t, pending + {k})
    requires p.Some? <==> s.slots[k].creator.value.succeeds
    ensures k in t.slots && t.slots[k] == s.slots[k]
    ensures OnlyMaterialises(s, Store(t, k, p)) && Untouched(s, Store(t, k, p), pending)
    ensures Store(t, k, p).slots[k].ptr == p
    ensures Store(t, k, p).calls[|s.calls|] == k && k !in Store(t, k, p).calls[|s.calls| + 1..]
  {
    FactoryCallStep(s, k, pending, t);
    var u := Store(t, k, p);
    forall j | j in s.slots && u.slots[j] != s.slots[j]
      ensures j in u.calls[|s.calls|..]
    {
      if j != k {
        assert t.slots[j] != s.slots[j];
      }
    }
  }

  /** Recording `k`'s factory call before running it keeps the run within
      what `OnlyMaterialises` allows, with that call first. */
  lemma FactoryCallStep<K(!new)>(s: Registry<K>, k: K, pending: set<K>, t: Registry<K>)
    requires pending <= s.slots.Keys && k !in pending && WasPending(s, k)
    requires OnlyMaterialises(s.(calls := s.calls + [k]), t)
    requires Untouched(s.(calls := s.calls + [k]), t, pending + {k})
    ensures k in t.slots && t.slots[k] == s.slots[k]
    ensures OnlyMaterialises(s, t) && Untouched(s, t, pending)
    ensures t.calls[|s.calls|..] == [k] + t.calls[|s.calls| + 1..]
    ensures k !in t.calls[|s.calls| + 1..]
  {
    var s1 := s.(calls := s.calls + [k]);
    assert OnlyMaterialises(s, s1) && Untouched(s, s1, pending);
    OnlyMaterialisesTransitive(s, s1, t);
    UntouchedTransitive(s, s1, t, pending);
    CallsSplit(s1.calls, t.calls, |s.calls|);
  }

  /** Run a factory against the registry: resolve its dependencies in
      order, then construct the object (a fresh serial) or return null. */
  function Invoke<K(==,!new)>(s: Registry<K>, f: Factory<K>, pending: set<K>): (o: Outcome<K, Option<Instance>>)
    requires pending <= s.slots.Keys
    ensures !o.Diverges? ==> OnlyMaterialises(s, o.after) && Untouched(s, o.after, pending)
    ensures o.Done? ==> (o.value.Some? <==> f.succeeds)
    ensures o.Done? && o.value.Some? ==> o.value.value.impl == f.impl && |o.value.value.deps| == |f.deps|
    ensures o.Done? && o.value.Some? ==>
              forall i :: 0 <= i < |f.deps| && f.deps[i] in s.slots && s.slots[f.deps[i]].ptr.Some? ==>
                            o.value.value.deps[i] == s.slots[f.deps[i]].ptr
    ensures o.Done? && o.value.Some? ==>
              forall i :: 0 <= i < |f.deps| ==> (o.value.value.deps[i].Some? <==> Produces(s, f.deps[i]))
    ensures o.Done? ==> forall i :: 0 <= i < |f.deps| ==> !BoundToNull(s, f.deps[i])
    decreases |s.slots.Keys - pending|, 2, 0
  {
    match ResolveAll(s, f.deps, pending)
    case Diverges => Diverges
    case Throws(t) => Throws(t)
    case Done(args, t) =>
      if f.succeeds then
        ObjectStep(s, t, pending);
        Done(Some(Instance(f.impl, t.made, args)), t.(made := t.made + 1))
      else Done(None, t)
  }

  /** Constructing an object only advances the counter: what the
      resolution so far guarantees still holds afterwards. */
  lemma ObjectStep<K(!new)>(s: Registry<K>, t: Registry<K>, pending: set<K>)
    requires pending <= s.slots.Keys
    requires OnlyMaterialises(s, t) && Untouched(s, t, pending)
    ensures OnlyMaterialises(s, t.(made := t.made + 1)) && Untouched(s, t.(made := t.made + 1), pending)
  {
    var u := t.(made := t.made + 1);
    assert forall j :: j in s.slots ==> (Produces(u, j) <==> Produces(t, j));
  }

  /** Resolve a list of keys in order, each against the registry left by the
      previous one; the first exception ends the list. A dependency yields
      an object exactly when its binding, at the start, can produce one, and
      a value handed out is what the registry then caches. */
  function ResolveAll<K(==,!new)>(s: Registry<K>, deps: seq<K>, pending: set<K>): (o: Outcome<K, seq<Option<Instance>>>)
    requires pending <= s.slots.Keys
    ensures !o.Diverges? ==> OnlyMaterialises(s, o.after) && Untouched(s, o.after, pending)
    ensures o.Done? ==> |o.value| == |deps|
    ensures o.Done? ==> forall i :: 0 <= i < |deps| ==> (o.value[i].Some? <==> Produces(s, deps[i]))
    ensures o.Done? ==> forall i :: 0 <= i < |deps| && deps[i] in s.slots && s.slots[deps[i]].ptr.Some? ==>
                                     o.value[i] == s.slots[deps[i]].ptr
    ensures o.Done? ==> forall i :: 0 <= i < |deps| && o.value[i].Some? ==>
                                     deps[i] in o.after.slots && o.after.slots[deps[i]].ptr == o.value[i]
    ensures o.Done? ==> forall i :: 0 <= i < |deps| ==> !BoundToNull(s, deps[i])
    decreases |s.slots.Keys - pending|, 1, |deps|
  {
    if |deps| == 0 then Done([], s)
    else
      match ResolveIn(s, deps[0], pending)
      case Diverges => Diverges
      case Throws(t) => Throws(t)
      case Done(v, t) =>
        match ResolveAll(t, deps[1..], pending)
        case Diverges => Diverges
        case Throws(u) =>
          OnlyMaterialisesTransitive(s, t, u);
          UntouchedTransitive(s, t, u, pending);
          Throws(u)
        case Done(vs, u) =>
          AllStep(s, deps, pending, v, t, vs, u);
          NoNullStep(s, deps, t);
          Done([v] + vs, u)
  }

  /** Joining the first dependency's resolution with the rest's. */
  lemma AllStep<K(!new)>(s: Registry<K>, deps: seq<K>, pending: set<K>,
                         v: Option<Instance>, t: Registry<K>, vs: seq<Option<Instance>>, u: Registry<K>)
    requires pending <= s.slots.Keys && |deps| > 0
    requires OnlyMaterialises(s, t) && Untouched(s, t, pending)
    requires v.Some? ==> deps[0] in t.slots && t.slots[deps[0]].ptr == v
    requires v.Some? <==> Produces(s, deps[0])
    requires deps[0] in s.slots && s.slots[deps[0]].ptr.Some? ==> v == s.slots[deps[0]].ptr
    requires OnlyMaterialises(t, u) && Untouched(t, u, pending)
    requires |vs| == |deps| - 1
    requires forall i :: 0 <= i < |deps| - 1 ==> (vs[i].Some? <==> Produces(t, deps[1..][i]))
    requires forall i :: 0 <= i < |deps| - 1 && deps[1..][i] in t.slots && t.slots[deps[1..][i]].ptr.Some? ==>
                           vs[i] == t.slots[deps[1..][i]].ptr
    requires forall i :: 0 <= i < |deps| - 1 && vs[i].Some? ==>
                           deps[1..][i] in u.slots && u.slots[deps[1..][i]].ptr == vs[i]
    ensures OnlyMaterialises(s, u) && Untouched(s, u, pending)
    ensures forall i :: 0 <= i < |deps| ==> (([v] + vs)[i].Some? <==> Produces(s, deps[i]))
    ensures forall i :: 0 <= i < |deps| && deps[i] in s.slots && s.slots[deps[i]].ptr.Some? ==>
                          ([v] + vs)[i] == s.slots[deps[i]].ptr
    ensures forall i :: 0 <= i < |deps| && ([v] + vs)[i].Some? ==>
                          deps[i] in u.slots && u.slots[deps[i]].ptr == ([v] + vs)[i]
  {
    OnlyMaterialisesTransitive(s, t, u);
    UntouchedTransitive(s, t, u, pending);
    forall i | 0 < i < |deps|
      ensures deps[i] == deps[1..][i - 1] && ([v] + vs)[i] == vs[i - 1]
    {
    }
  }

  /** A key bound to null stays so through a resolution (it has no factory
      to run), so when the rest of a list was clear of such keys at `t`,
      it was already clear at `s`. */
  lemma NoNullStep<K(!new)>(s: Registry<K>, deps: seq<K>, t: Registry<K>)
    requires |deps| > 0 && OnlyMaterialises(s, t) && !BoundToNull(s, deps[0])
    requires forall i :: 0 <= i < |deps| - 1 ==> !BoundToNull(t, deps[1..][i])
    ensures forall i :: 0 <= i < |deps| ==> !BoundToNull(s, deps[i])
  {
    forall i | 0 < i < |deps|
      ensures !BoundToNull(s, deps[i])
    {
      assert deps[i] == deps[1..][i - 1];
    }
  }

  /** `resolve<T>()` called from outside any factory. */
  function Resolve<K(==,!new)>(s: Registry<K>, k: K): (o: Outcome<K, Option<Instance>>)
    ensures !o.Diverges? ==> OnlyMaterialises(s, o.after)
    ensures o.Done? ==> (o.value.Some? <==> Produces(s, k))
    ensures o.Done? && CanResolve(s, k) ==> o.after.slots[k].ptr == o.value
    ensures o.Throws? && CanResolve(s, k) ==> o.after.slots[k] == s.slots[k]
    ensures !CanResolve(s, k) ==> o == Done(None, s)
    ensures CanResolve(s, k) && s.slots[k].ptr.Some? ==> o == Done(s.slots[k].ptr, s)
    ensures CanResolve(s, k) && s.slots[k].ptr.None? && s.slots[k].creator.None? ==> o == Throws(s)
    ensures !o.Diverges? && WasPending(s, k) ==>
              && |o.after.calls| > |s.calls|
              && o.after.calls[|s.calls|] == k
              && k !in o.after.calls[|s.calls| + 1..]
    ensures o.Done? && WasPending(s, k) ==> (o.value.Some? <==> s.slots[k].creator.value.succeeds)
  {
    ResolveIn(s, k, {})
  }

  /** `interfaces()`: the module loader is created on the first call and
      reused afterwards; the bindings are not touched. */
  function Interfaces<K(==,!new)>(s: Registry<K>): (r: Registry<K>)
    ensures r.loader
    ensures r.slots == s.slots && r.made == s.made && r.calls == s.calls
  {
    if s.loader then s else s.(loader := true)
  }
}

=== FILE: properties.dfy ===
/** Properties of the registry: what binding, resolving and loading modules
    promise, stated over single calls and over sequences of calls. */
module Properties {
  import opened Locator
  import opened Loader

  /** A freshly created registry can resolve nothing and hands out null. */
  lemma FreshRegistryIsEmpty<K(!new)>(k: K)
    ensures !CanResolve(Create<K>(), k)
    ensures Resolve(Create<K>(), k) == Done(None, Create<K>())
  {
  }

  /** Every finalizer is "first bind wins": on a bound key the registry is
      returned unchanged, on an unbound key exactly that key is added and
      every other slot is kept. */
  lemma FirstBindWins<K(!new)>(s: Registry<K>, k: K, how: Binding<K>)
    ensures k in s.slots ==> Finalize(s, k, how) == s
    ensures k !in s.slots ==>
              && Finalize(s, k, how).slots.Keys == s.slots.Keys + {k}
              && (forall j :: j in s.slots ==> Finalize(s, k, how).slots[j] == s.slots[j])
              && Finalize(s, k, how).calls == s.calls
  {
  }

  /** The first bind of a key in a module decides its slot for good: later
      binds of the key in the same module are ignored and resolves only
      fill in an instance from the bound factory. */
  lemma {:induction false} FirstBindInModuleWins<K(!new)>(s: Registry<K>, m: seq<Step<K>>, i: nat)
    requires i < |m| && m[i].BindTo? && m[i].key !in s.slots
    requires forall j :: 0 <= j < i ==> !(m[j].BindTo? && m[j].key == m[i].key)
    requires Load(s, m).Done?
    ensures var k, u := m[i].key, Load(s, m).after;
            && k in u.slots
            && (m[i].how.Existing? ==> u.slots[k] == Slot(m[i].how.ptr, None))
            && (m[i].how.Default? ==>
                  u.slots[k].creator.None? && u.slots[k].ptr.Some? && u.slots[k].ptr.value.impl == m[i].how.impl)
            && (m[i].how.Deferred? ==> u.slots[k].creator == m[i].how.f)
    decreases i
  {
    var k := m[i].key;
    var o := Perform(s, m[0]);
    var t := o.after;
    var rest := Load(t, m[1..]);
    assert Load(s, m).after == rest.after;
    if i == 0 {
      assert t.slots[k].creator.Some? ==> m[i].how.Deferred?;
      assert !WasPending(t, k) ==> rest.after.slots[k] == t.slots[k];
    } else {
      assert k !in t.slots by {
        if m[0].BindTo? {
          assert m[0].key != k;
        }
      }
      forall j | 0 <= j < i - 1
        ensures !(m[1..][j].BindTo? && m[1..][j].key == k)
      {
        assert m[1..][j] == m[j + 1];
      }
      FirstBindInModuleWins(t, m[1..], i - 1);
    }
  }

  /** Running a module is running its first part, then its second part
      against the registry the first part left. */
  lemma {:induction false} LoadInCallOrder<K(!new)>(s: Registry<K>, m1: seq<Step<K>>, m2: seq<Step<K>>)
    ensures Load(s, m1 + m2) ==
            match Load(s, m1)
            case Diverges => Diverges
            case Throws(t) => Throws(t)
            case Done(v1, t) =>
              match Load(t, m2)
              case Diverges => Diverges
              case Throws(u) => Throws(u)
              case Done(v2, u) => Done(v1 + v2, u)
    decreases |m1|
  {
    if |m1| == 0 {
      assert m1 + m2 == m2;
      match Load(s, m2)
      case Diverges =>
      case Throws(u) =>
      case Done(v2, u) =>
        assert [] + v2 == v2;
    } else {
      assert (m1 + m2)[0] == m1[0];
      assert (m1 + m2)[1..] == m1[1..] + m2;
      match Perform(s, m1[0])
      case Diverges =>
      case Throws(t) =>
      case Done(v, t) =>
        LoadInCallOrder(t, m1[1..], m2);
        match Load(t, m1[1..])
        case Diverges =>
        case Throws(t') =>
        case Done(vs, t') =>
          match Load(t', m2)
          case Diverges =>
          case Throws(u) =>
          case Done(v2, u) =>
            assert [v] + (vs + v2) == ([v] + vs) + v2;
    }
  }

  /** Chained `add` calls run the modules in call order against one
      registry: adding `ms1` then `ms2` is adding `ms1 + ms2`. */
  lemma {:induction false} AddInCallOrder<K(!new)>(s: Registry<K>, ms1: seq<seq<Step<K>>>, ms2: seq<seq<Step<K>>>)
    ensures Add(s, ms1 + ms2) ==
            match Add(s, ms1)
            case Diverges => Diverges
            case Throws(t) => Throws(t)
            case Done(v1, t) =>
              match Add(t, ms2)
              case Diverges => Diverges
              case Throws(u) => Throws(u)
              case Done(v2, u) => Done(v1 + v2, u)
    decreases |ms1|
  {
    if |ms1| == 0 {
      assert ms1 + ms2 == ms2;
      match Add(s, ms2)
      case Diverges =>
      case Throws(u) =>
      case Done(v2, u) =>
        assert [] + v2 == v2;
    } else {
      assert (ms1 + ms2)[0] == ms1[0];
      assert (ms1 + ms2)[1..] == ms1[1..] + ms2;
      match Load(s, ms1[0])
      case Diverges =>
      case Throws(t) =>
      case Done(v, t) =>
        AddInCallOrder(t, ms1[1..], ms2);
        match Add(t, ms1[1..])
        case Diverges =>
        case Throws(t') =>
        case Done(vs, t') =>
          match Add(t', ms2)
          case Diverges =>
          case Throws(u) =>
          case Done(v2, u) =>
            assert [v] + (vs + v2) == ([v] + vs) + v2;
    }
  }

  /** The modules of a chain, run back to back as one module. */
  function Concat<T>(xss: seq<seq<T>>): (r: seq<T>)
    decreases |xss|
  {
    if |xss| == 0 then [] else xss[0] + Concat(xss[1..])
  }

  /** A chain of `add` calls runs exactly the steps of its modules, in
      order, as one module would: the same outcome, the same registry
      after, and the same observations laid end to end. */
  lemma {:induction false} AddRunsConcatenatedModules<K(!new)>(s: Registry<K>, ms: seq<seq<Step<K>>>)
    ensures Load(s, Concat(ms)) ==
            match Add(s, ms)
            case Diverges => Diverges
            case Throws(u) => Throws(u)
            case Done(vss, u) => Done(Concat(vss), u)
    decreases |ms|
  {
    if |ms| > 0 {
      LoadInCallOrder(s, ms[0], Concat(ms[1..]));
      match Load(s, ms[0])
      case Diverges =>
      case Throws(t) =>
      case Done(v, t) =>
        AddRunsConcatenatedModules(t, ms[1..]);
        match Add(t, ms[1..])
        case Diverges =>
        case Throws(u) =>
        case Done(vss, u) =>
          assert ([v] + vss)[0] == v && ([v] + vss)[1..] == vss;
    }
  }

  /** A module of one step observes exactly that step. */
  lemma LoadSingle<K(!new)>(s: Registry<K>, step: Step<K>)
    ensures Load(s, [step]) ==
            match Perform(s, step)
            case Diverges => Diverges
            case Throws(u) => Throws(u)
            case Done(v, u) => Done([v], u)
  {
    assert [step][0] == step && [step][1..] == [];
    match Perform(s, step)
    case Diverges =>
    case Throws(u) =>
    case Done(v, u) =>
      assert Load(u, []) == Done([], u);
      assert [v] + [] == [v];
  }

  /** A chain of one `add` is that module's `load()`. */
  lemma AddSingle<K(!new)>(s: Registry<K>, m: seq<Step<K>>)
    ensures Add(s, [m]) ==
            match Load(s, m)
            case Diverges => Diverges
            case Throws(u) => Throws(u)
            case Done(v, u) => Done([v], u)
  {
    assert [m][0] == m && [m][1..] == [];
    match Load(s, m)
    case Diverges =>
    case Throws(u) =>
    case Done(v, u) =>
      assert Add(u, []) == Done([], u);
      assert [v] + [] == [v];
  }

  /** Every key a module binds can be resolved once the module is loaded,
      so it is visible to every module added after it. */
  lemma {:induction false} LoadedBindingsAreVisible<K(!new)>(s: Registry<K>, m: seq<Step<K>>, i: nat)
    requires i < |m| && m[i].BindTo?
    requires Load(s, m).Done?
    ensures CanResolve(Load(s, m).after, m[i].key)
    decreases i
  {
    var t := Perform(s, m[0]).after;
    if i == 0 {
      assert CanResolve(t, m[0].key);
    } else {
      assert m[1..][i - 1] == m[i];
      LoadedBindingsAreVisible(t, m[1..], i - 1);
    }
  }

  /** A module that finishes finished its first step, then the rest. */
  lemma LoadStep<K(!new)>(s: Registry<K>, m: seq<Step<K>>)
    requires |m| > 0 && Load(s, m).Done?
    ensures var o := Perform(s, m[0]);
            && o.Done?
            && Load(o.after, m[1..]).Done?
            && Load(s, m).value == [o.value] + Load(o.after, m[1..]).value
            && Load(s, m).after == Load(o.after, m[1..]).after
  {
  }

  /** A cached instance is served by every later resolve of its key, its
      slot never changes, and no factory is called for it. */
  lemma {:induction false} CachedInstanceIsServed<K(!new)>(s: Registry<K>, m: seq<Step<K>>, k: K)
    requires k in s.slots && s.slots[k].ptr.Some?
    requires Load(s, m).Done?
    ensures Load(s, m).after.slots[k] == s.slots[k]
    ensures forall i :: 0 <= i < |m| && m[i] == Fetch(k) ==> Load(s, m).value[i] == s.slots[k].ptr
    ensures k !in Load(s, m).after.calls[|s.calls|..]
    decreases |m|
  {
    if |m| > 0 {
      LoadStep(s, m);
      CachedInstanceSurvivesStep(s, m[0], k);
      var o := Perform(s, m[0]);
      var t := o.after;
      var r := Load(t, m[1..]);
      CachedInstanceIsServed(t, m[1..], k);
      NotCalledSince(t.calls, r.after.calls, |s.calls|, k);
      forall i | 0 < i < |m| && m[i] == Fetch(k)
        ensures Load(s, m).value[i] == s.slots[k].ptr
      {
        assert m[1..][i - 1] == m[i];
      }
    }
  }

  /** One step of a module keeps a cached instance and calls no factory
      for its key; a resolve of the key returns it. */
  lemma CachedInstanceSurvivesStep<K(!new)>(s: Registry<K>, step: Step<K>, k: K)
    requires k in s.slots && s.slots[k].ptr.Some?
    requires Perform(s, step).Done?
    ensures Perform(s, step).after.slots[k] == s.slots[k]
    ensures k !in Perform(s, step).after.calls[|s.calls|..]
    ensures step == Fetch(k) ==> Perform(s, step).value == s.slots[k].ptr
  {
    var t := Perform(s, step).after;
    assert !WasPending(s, k);
    forall i | |s.calls| <= i < |t.calls|
      ensures t.calls[i] != k
    {
    }
  }

  /** A key missing from a call record since `n`, and from what a longer
      record added, is missing from the longer record since `n`. */
  lemma NotCalledSince<K>(a: seq<K>, c: seq<K>, n: nat, k: K)
    requires n <= |a| && a <= c
    requires k !in a[n..] && k !in c[|a|..]
    ensures k !in c[n..] && c[..n] == a[..n]
  {
    assert c[n..] == a[n..] + c[|a|..];
  }

  /** The same, counted from an earlier point `n` of the call record. */
  lemma CachedInstanceIsServedSince<K(!new)>(u: Registry<K>, m: seq<Step<K>>, k: K, n: nat)
    requires k in u.slots && u.slots[k].ptr.Some?
    requires Load(u, m).Done?
    requires n <= |u.calls| && k !in u.calls[n..]
    ensures forall i :: 0 <= i < |m| && m[i] == Fetch(k) ==> Load(u, m).value[i] == u.slots[k].ptr
    ensures Load(u, m).after.calls[..n] == u.calls[..n]
    ensures k !in Load(u, m).after.calls[n..]
  {
    CachedInstanceIsServed(u, m, k);
    NotCalledSince(u.calls, Load(u, m).after.calls, n, k);
  }

  /** `to(ptr)` with a non-null `ptr` on an unbound key: the key resolves,
      every later resolve returns exactly `ptr`, and nothing is invoked
      for it. */
  lemma InstanceBindingIsServed<K(!new)>(s: Registry<K>, k: K, x: Instance, m: seq<Step<K>>)
    requires k !in s.slots
    requires Load(ToInstance(ToClause(k), s, Some(x)), m).Done?
    ensures var o := Load(ToInstance(ToClause(k), s, Some(x)), m);
            && CanResolve(o.after, k)
            && o.after.slots[k] == Slot(Some(x), None)
            && (forall i :: 0 <= i < |m| && m[i] == Fetch(k) ==> o.value[i] == Some(x))
            && k !in o.after.calls[|s.calls|..]
  {
    CachedInstanceIsServed(ToInstance(ToClause(k), s, Some(x)), m, k);
  }

  /** `to(ptr)` with a null `ptr` makes a slot with neither an instance nor
      a factory: the key counts as resolvable, yet resolving it calls an
      empty `std::function`, which throws and changes nothing. */
  lemma NullInstanceBindingThrows<K(!new)>(s: Registry<K>, k: K)
    requires k !in s.slots
    ensures var t := ToInstance(ToClause(k), s, None);
            && CanResolve(t, k)
            && t.slots[k] == Slot(None, None)
            && Resolve(t, k) == Throws(t)
  {
  }

  /** `to(createFunc)` with an empty function stores the same slot as
      `to(nullptr)`, and so the key counts as resolvable yet resolving it
      throws. */
  lemma EmptyFactoryIsNullBinding<K(!new)>(s: Registry<K>, k: K)
    ensures ToFactory(ToClause(k), s, None) == ToInstance(ToClause(k), s, None)
    ensures k !in s.slots ==>
              var t := ToFactory(ToClause(k), s, None);
              && CanResolve(t, k)
              && t.slots[k] == Slot(None, None)
              && Resolve(t, k) == Throws(t)
  {
    if k !in s.slots {
      NullInstanceBindingThrows(s, k);
    }
  }

  /** `to<TImpl>()` constructs its object at bind time: the slot holds an
      instance and no factory, and resolving returns that instance without
      changing anything. */
  lemma DefaultBindingIsEager<K(!new)>(s: Registry<K>, k: K, impl: nat)
    requires k !in s.slots
    ensures var t := ToDefault(ToClause(k), s, impl);
            && CanResolve(t, k)
            && t.slots[k] == Slot(Some(Instance(impl, s.made, [])), None)
            && Resolve(t, k) == Done(Some(Instance(impl, s.made, [])), t)
  {
  }

  /** `to(createFunc)`: the first resolve invokes the factory exactly once
      (nested resolves never re-enter it), and it produces an object exactly
      when the factory does. */
  lemma DeferredFactoryRunsOnce<K(!new)>(s: Registry<K>, k: K, f: Factory<K>)
    requires k !in s.slots
    requires Resolve(ToFactory(ToClause(k), s, Some(f)), k).Done?
    ensures var o := Resolve(ToFactory(ToClause(k), s, Some(f)), k);
            && o.after.calls[|s.calls|] == k
            && k !in o.after.calls[|s.calls| + 1..]
            && (o.value.Some? <==> f.succeeds)
            && o.after.slots[k] == Slot(o.value, Some(f))
  {
  }

  /** Once a deferred factory has produced an object, every later resolve
      returns that same object and the factory is never invoked again. */
  lemma DeferredInstanceIsCached<K(!new)>(s: Registry<K>, k: K, f: Factory<K>, m: seq<Step<K>>)
    requires k !in s.slots && f.succeeds
    requires Resolve(ToFactory(ToClause(k), s, Some(f)), k).Done?
    requires Load(Resolve(ToFactory(ToClause(k), s, Some(f)), k).after, m).Done?
    ensures var o := Resolve(ToFactory(ToClause(k), s, Some(f)), k);
            var w := Load(o.after, m);
            && o.value.Some?
            && (forall i :: 0 <= i < |m| && m[i] == Fetch(k) ==> w.value[i] == o.value)
            && w.after.calls[|s.calls|] == k
            && k !in w.after.calls[|s.calls| + 1..]
  {
    DeferredFactoryRunsOnce(s, k, f);
    var u := Resolve(ToFactory(ToClause(k), s, Some(f)), k).after;
    CachedInstanceIsServedSince(u, m, k, |s.calls| + 1);
  }

  /** The same across a chain of `add` calls: once a deferred factory has
      produced an object, no later module calls it again and its slot keeps
      that object. */
  lemma DeferredInstanceIsCachedAcrossAdd<K(!new)>(s: Registry<K>, k: K, f: Factory<K>, ms: seq<seq<Step<K>>>)
    requires k !in s.slots && f.succeeds
    requires Resolve(ToFactory(ToClause(k), s, Some(f)), k).Done?
    requires Add(Resolve(ToFactory(ToClause(k), s, Some(f)), k).after, ms).Done?
    ensures var o := Resolve(ToFactory(ToClause(k), s, Some(f)), k);
            var w := Add(o.after, ms);
            && o.value.Some?
            && w.after.slots[k].ptr == o.value
            && w.after.calls[|s.calls|] == k
            && k !in w.after.calls[|s.calls| + 1..]
  {
    var u := Resolve(ToFactory(ToClause(k), s, Some(f)), k).after;
    AddRunsConcatenatedModules(u, ms);
    DeferredInstanceIsCached(s, k, f, Concat(ms));
    CachedInstanceIsServed(u, Concat(ms), k);
  }

  /** When a deferred factory returned null, the slot stays empty and the
      next resolve invokes the factory again. */
  lemma NullFromFactoryIsRetried<K(!new)>(s: Registry<K>, k: K, f: Factory<K>)
    requires k !in s.slots && !f.succeeds
    requires Resolve(ToFactory(ToClause(k), s, Some(f)), k).Done?
    ensures var o := Resolve(ToFactory(ToClause(k), s, Some(f)), k);
            && o.value.None?
            && o.after.slots[k] == Slot(None, Some(f))
            && (Resolve(o.after, k).Done? ==>
                  Resolve(o.after, k).value.None? && Resolve(o.after, k).after.calls[|o.after.calls|] == k)
  {
    DeferredFactoryRunsOnce(s, k, f);
  }

  /** `canResolve` is unaffected by resolving: a resolve neither adds nor
      removes a key. */
  lemma ResolveKeepsCanResolve<K(!new)>(s: Registry<K>, k: K, j: K)
    requires Resolve(s, k).Done?
    ensures CanResolve(Resolve(s, k).after, j) == CanResolve(s, j)
  {
  }

  /** A resolve only fills empty slots whose factory it invoked: an
      existing instance is never replaced and no factory is replaced. */
  lemma ResolveOnlyFillsEmptySlots<K(!new)>(s: Registry<K>, k: K, j: K)
    requires Resolve(s, k).Done? && j in s.slots
    ensures var u := Resolve(s, k).after;
            && u.slots[j].creator == s.slots[j].creator
            && (s.slots[j].ptr.Some? ==> u.slots[j] == s.slots[j])
            && (u.slots[j] != s.slots[j] ==> j in u.calls[|s.calls|..])
  {
  }

  /** `interfaces()` makes its loader once: calling it again changes
      nothing, and it never touches the bindings. */
  lemma InterfacesIsMemoised<K(!new)>(s: Registry<K>)
    ensures Interfaces(Interfaces(s)) == Interfaces(s)
    ensures s.loader ==> Interfaces(s) == s
    ensures forall k :: CanResolve(Interfaces(s), k) == CanResolve(s, k)
  {
  }

  /** Loading modules only adds: no key is removed, no factory replaced,
      no cached instance replaced. */
  lemma {:induction false} AddOnlyGrows<K(!new)>(s: Registry<K>, modules: seq<seq<Step<K>>>, j: K)
    requires Add(s, modules).Done? && j in s.slots
    ensures var u := Add(s, modules).after;
            && j in u.slots
            && u.slots[j].creator == s.slots[j].creator
            && (s.slots[j].ptr.Some? ==> u.slots[j].ptr == s.slots[j].ptr)
  {
  }

  /** A factory handed the registry sees every instance already cached
      there, whichever of the two keys was bound first. */
  lemma FactorySeesCachedDependency<K(!new)>(s: Registry<K>, a: K, f: Factory<K>, i: nat, x: Instance)
    requires a in s.slots && s.slots[a] == Slot(None, Some(f))
    requires i < |f.deps| && f.deps[i] in s.slots && s.slots[f.deps[i]].ptr == Some(x)
    requires Resolve(s, a).Done? && Resolve(s, a).value.Some?
    ensures Resolve(s, a).value.value.deps[i] == Some(x)
  {
    var s1 := s.(calls := s.calls + [a]);
    assert {} + {a} == {a};
    var inv := Invoke(s1, f, {a});
    assert inv.Done? && Resolve(s, a).value == inv.value;
  }

  /** A factory handed the registry gets an object for a dependency exactly
      when that dependency's binding can produce one: a cached instance, or
      a deferred factory that constructs its object, even one that has not
      run yet. */
  lemma FactorySeesBoundDependency<K(!new)>(s: Registry<K>, a: K, f: Factory<K>, i: nat)
    requires a in s.slots && s.slots[a] == Slot(None, Some(f)) && i < |f.deps|
    requires Resolve(s, a).Done? && Resolve(s, a).value.Some?
    ensures Resolve(s, a).value.value.deps[i].Some? <==> Produces(s, f.deps[i])
    ensures var d := f.deps[i];
            d in s.slots && s.slots[d].creator.Some? && s.slots[d].creator.value.succeeds ==>
              Resolve(s, a).value.value.deps[i].Some?
  {
    var s1 := s.(calls := s.calls + [a]);
    assert {} + {a} == {a};
    var inv := Invoke(s1, f, {a});
    assert inv.Done? && Resolve(s, a).value == inv.value;
    assert Produces(s1, f.deps[i]) == Produces(s, f.deps[i]);
  }

  /** A factory with a dependency bound to null never gets to construct:
      the exception from the nested resolve escapes it and its slot stays
      empty. When that dependency is the first, nothing else happens: no
      object is made and only the factory's own call is recorded. */
  lemma NullDependencyAbandonsFactory<K(!new)>(s: Registry<K>, a: K, f: Factory<K>, i: nat)
    requires a in s.slots && s.slots[a] == Slot(None, Some(f))
    requires i < |f.deps| && BoundToNull(s, f.deps[i])
    ensures !Resolve(s, a).Done?
    ensures Resolve(s, a).Throws? ==> Resolve(s, a).after.slots[a] == s.slots[a]
    ensures i == 0 ==> Resolve(s, a) == Throws(s.(calls := s.calls + [a]))
  {
    var s1 := s.(calls := s.calls + [a]);
    assert {} + {a} == {a};
    assert Resolve(s, a) == ResolveIn(s, a, {});
    assert BoundToNull(s1, f.deps[i]);
    assert !Invoke(s1, f, {a}).Done?;
    if i == 0 {
      assert ResolveIn(s1, f.deps[0], {a}) == Throws(s1);
      assert ResolveAll(s1, f.deps, {a}) == Throws(s1);
      assert Invoke(s1, f, {a}) == Throws(s1);
    }
  }

  /** A factory whose dependencies include its own key never returns
      normally; when its own key is the first dependency, the source
      recurses without bound. */
  lemma SelfDependencyNeverReturns<K(!new)>(s: Registry<K>, k: K, f: Factory<K>)
    requires k in s.slots && s.slots[k] == Slot(None, Some(f)) && k in f.deps
    ensures !Resolve(s, k).Done?
    ensures f.deps[0] == k ==> Resolve(s, k).Diverges?
  {
    var s1 := s.(calls := s.calls + [k]);
    assert {} + {k} == {k};
    var i :| 0 <= i < |f.deps| && f.deps[i] == k;
    PendingDependencyNeverReturns(s1, f.deps, {k}, i);
    assert !Invoke(s1, f, {k}).Done?;
    if f.deps[0] == k {
      PendingDependencyNeverReturns(s1, f.deps, {k}, 0);
      assert ResolveAll(s1, f.deps[..0], {k}) == Done([], s1);
      assert Invoke(s1, f, {k}).Diverges?;
    }
    assert Resolve(s, k) == ResolveIn(s, k, {});
  }

  /** Resolving a dependency list never returns normally once one of the
      dependencies has its factory running; when every earlier dependency
      returns, the list diverges. */
  lemma {:induction false} PendingDependencyNeverReturns<K(!new)>(s: Registry<K>, deps: seq<K>, pending: set<K>, i: nat)
    requires pending <= s.slots.Keys
    requires i < |deps| && deps[i] in pending && WasPending(s, deps[i])
    ensures !ResolveAll(s, deps, pending).Done?
    ensures ResolveAll(s, deps[..i], pending).Done? ==> ResolveAll(s, deps, pending).Diverges?
    decreases i
  {
    if i > 0 {
      assert deps[..i][0] == deps[0] && deps[..i][1..] == deps[1..][..i - 1];
      match ResolveIn(s, deps[0], pending)
      case Diverges =>
      case Throws(_) =>
      case Done(_, t) =>
        assert deps[1..][i - 1] == deps[i];
        PendingDependencyNeverReturns(t, deps[1..], pending, i - 1);
    }
  }

  /** Factory dependencies strictly decrease `rank` among bound keys: no
      factory can reach its own key again. */
  predicate Ranked<K(==,!new)>(s: Registry<K>, rank: map<K, nat>)
  {
    forall j :: j in s.slots && s.slots[j].creator.Some? ==>
      && j in rank
      && forall d :: d in s.slots[j].creator.value.deps && d in s.slots ==> d in rank && rank[d] < rank[j]
  }

  /** With acyclic factory dependencies, resolution always finishes: it
      returns, or an exception escapes it. */
  lemma AcyclicResolveFinishes<K(!new)>(s: Registry<K>, k: K, rank: map<K, nat>)
    requires Ranked(s, rank)
    ensures !Resolve(s, k).Diverges?
  {
    RankedResolveFinishes(s, k, {}, rank);
  }

  lemma {:induction false} RankedResolveFinishes<K(!new)>(s: Registry<K>, k: K, pending: set<K>, rank: map<K, nat>)
    requires pending <= s.slots.Keys && Ranked(s, rank)
    requires WasPending(s, k) ==> forall p :: p in pending ==> p in rank && rank[k] < rank[p]
    ensures !ResolveIn(s, k, pending).Diverges?
    decreases |s.slots.Keys - pending|, 0, 0
  {
    if WasPending(s, k) {
      var f := s.slots[k].creator.value;
      assert k !in pending;
      ShrinkMeasure(s.slots.Keys, pending, k);
      RankedInvokeFinishes(s.(calls := s.calls + [k]), f, pending + {k}, rank);
    }
  }

  lemma {:induction false} RankedInvokeFinishes<K(!new)>(s: Registry<K>, f: Factory<K>, pending: set<K>, rank: map<K, nat>)
    requires pending <= s.slots.Keys && Ranked(s, rank)
    requires forall d :: d in f.deps && WasPending(s, d) ==>
                           forall p :: p in pending ==> p in rank && rank[d] < rank[p]
    ensures !Invoke(s, f, pending).Diverges?
    decreases |s.slots.Keys - pending|, 2, 0
  {
    RankedAllFinishes(s, f.deps, pending, rank);
  }

  lemma {:induction false} RankedAllFinishes<K(!new)>(s: Registry<K>, deps: seq<K>, pending: set<K>, rank: map<K, nat>)
    requires pending <= s.slots.Keys && Ranked(s, rank)
    requires forall d :: d in deps && WasPending(s, d) ==>
                           forall p :: p in pending ==> p in rank && rank[d] < rank[p]
    ensures !ResolveAll(s, deps, pending).Diverges?
    decreases |s.slots.Keys - pending|, 1, |deps|
  {
    if |deps| > 0 {
      RankedResolveFinishes(s, deps[0], pending, rank);
      if ResolveIn(s, deps[0], pending).Done? {
        var t := ResolveIn(s, deps[0], pending).after;
        assert Ranked(t, rank);
        forall d | d in deps[1..] && WasPending(t, d)
          ensures WasPending(s, d)
        {
        }
        RankedAllFinishes(t, deps[1..], pending, rank);
      }
    }
  }
}

=== FILE: scenarios.dfy ===
/** The usage scenarios of the library's test and example program, on a
    concrete key type. */
module Scenarios {
  import opened Locator
  import opened Loader
  import opened Properties

  /** Interface keys used by the test and the example program. */
  datatype Ifc = Int | Bool | Float | Str | IFoo | IBar

  const FooImpl: nat := 1
  const BarImpl: nat := 2

  /** `ImplFoo` made by a factory that ignores the registry. */
  const FooFactory: Factory<Ifc> := Factory(FooImpl, [], true)

  /** `ImplBar(sl->resolve<IFoo>())`. */
  const BarFactory: Factory<Ifc> := Factory(BarImpl, [IFoo], true)

  /** The module binding `IBar`, and the one binding `IFoo`. */
  const BarModule: seq<Step<Ifc>> := [BindTo(IBar, Deferred(Some(BarFactory)))]
  const FooModule: seq<Step<Ifc>> := [BindTo(IFoo, Deferred(Some(FooFactory)))]

  /** The objects the two factories make, in the order they run. */
  const Foo: Instance := Instance(FooImpl, 0, [])
  const Bar: Instance := Instance(BarImpl, 1, [Some(Foo)])

  /** A fresh registry resolves none of the test's types; after
      `bind<IFoo>()->to<Foo>()` it resolves `IFoo` to a non-null object. */
  lemma EagerFooScenario(k: Ifc)
    ensures !CanResolve(Create<Ifc>(), k) && Resolve(Create<Ifc>(), k).value.None?
    ensures var s := ToDefault(Bind(Create<Ifc>(), IFoo), Create<Ifc>(), FooImpl);
            && CanResolve(s, IFoo)
            && Resolve(s, IFoo).value == Some(Instance(FooImpl, 0, []))
  {
  }

  /** The registry once `IFoo` has a deferred factory and the loader exists. */
  function FooBound(): Registry<Ifc>
  {
    Registry(map[IFoo := Slot(None, Some(FooFactory))], 0, [], true)
  }

  /** ... and once `IBar` has one too. */
  function BothBound(): Registry<Ifc>
  {
    Registry(map[IFoo := Slot(None, Some(FooFactory)), IBar := Slot(None, Some(BarFactory))], 0, [], true)
  }

  lemma BarModuleBindsBar(t: Registry<Ifc>, t2: Registry<Ifc>)
    requires t == FooBound() && t2 == BothBound()
    ensures Load(t, BarModule) == Done([None], t2)
    ensures Add(t, [BarModule]) == Done([[None]], t2)
  {
    var none: Option<Instance> := None;
    assert Finalize(t, IBar, Deferred(Some(BarFactory))) == t2;
    assert BarModule[1..] == [];
    assert Load(t2, BarModule[1..]) == Done([], t2);
    assert [none] + [] == [none];
    assert Load(t, BarModule) == Done([None], t2);
    assert [BarModule][1..] == [];
    assert Add(t2, [BarModule][1..]) == Done([], t2);
    assert [[none]] + [] == [[none]];
  }

  lemma FooModuleBindsFoo(s: Registry<Ifc>, t: Registry<Ifc>)
    requires s == Interfaces(Create<Ifc>()) && t == FooBound()
    ensures Load(s, FooModule) == Done([None], t)
    ensures Add(s, [FooModule]) == Done([[None]], t)
  {
    var none: Option<Instance> := None;
    assert Finalize(s, IFoo, Deferred(Some(FooFactory))) == t;
    assert FooModule[1..] == [];
    assert Load(t, FooModule[1..]) == Done([], t);
    assert [none] + [] == [none];
    assert Load(s, FooModule) == Done([None], t);
    assert [FooModule][1..] == [];
    assert Add(t, [FooModule][1..]) == Done([], t);
    assert [[none]] + [] == [[none]];
  }

  /** Resolving `IFoo` while the factories of `pending` run: `Foo` is made
      and cached, and `IFoo`'s factory call is recorded. */
  lemma FooResolves(s: Registry<Ifc>, pending: set<Ifc>)
    requires s.slots.Keys == {IFoo, IBar} && s.slots[IFoo] == Slot(None, Some(FooFactory))
    requires pending <= {IBar} && s.made == 0
    ensures ResolveIn(s, IFoo, pending) ==
            Done(Some(Foo), s.(slots := s.slots[IFoo := Slot(Some(Foo), Some(FooFactory))],
                               made := 1, calls := s.calls + [IFoo]))
  {
    var s1 := s.(calls := s.calls + [IFoo]);
    assert ResolveAll(s1, [], pending + {IFoo}) == Done([], s1);
    assert Invoke(s1, FooFactory, pending + {IFoo}) == Done(Some(Foo), s1.(made := 1));
  }

  /** Resolving `IBar` when `IFoo` is cached as `Foo`: `Bar` is made around
      that very `Foo`. */
  lemma BarResolves(s: Registry<Ifc>)
    requires s.slots.Keys == {IFoo, IBar} && s.slots[IBar] == Slot(None, Some(BarFactory))
    requires s.slots[IFoo].ptr == Some(Foo) && s.made == 1
    ensures Resolve(s, IBar) ==
            Done(Some(Bar), s.(slots := s.slots[IBar := Slot(Some(Bar), Some(BarFactory))],
                               made := 2, calls := s.calls + [IBar]))
  {
    var s1 := s.(calls := s.calls + [IBar]);
    assert ResolveIn(s1, IFoo, {IBar}) == Done(Some(Foo), s1);
    assert ResolveAll(s1, [IFoo][1..], {IBar}) == Done([], s1);
    assert [Some(Foo)] + [] == [Some(Foo)];
    assert ResolveAll(s1, [IFoo], {IBar}) == Done([Some(Foo)], s1);
    assert {} + {IBar} == {IBar};
    assert Invoke(s1, BarFactory, {IBar}) == Done(Some(Bar), s1.(made := 2));
  }

  /** Resolving `IBar` when `IFoo` is bound but not yet made: `IBar`'s
      factory resolves `IFoo` first, so `Foo` is made and cached, then `Bar`
      around it; `IBar`'s factory call is recorded before `IFoo`'s. */
  lemma BarResolvesFoo(s0: Registry<Ifc>)
    requires s0 == BothBound()
    ensures var o := Resolve(s0, IBar);
            o.Done? && o.value == Some(Bar) && o.after.calls == [IBar, IFoo]
  {
    var s1 := s0.(calls := s0.calls + [IBar]);
    assert {} + {IBar} == {IBar};
    BarFactoryResolvesFoo(s1);
    var inv := Invoke(s1, BarFactory, {IBar});
    assert WasPending(s0, IBar);
    assert s0.slots[IBar].creator.value == BarFactory;
  }

  lemma BarFactoryResolvesFoo(s1: Registry<Ifc>)
    requires s1 == BothBound().(calls := [IBar])
    ensures var o := Invoke(s1, BarFactory, {IBar});
            o.Done? && o.value == Some(Bar) && o.after.calls == [IBar, IFoo]
  {
    FooResolves(s1, {IBar});
    var s2 := s1.(slots := s1.slots[IFoo := Slot(Some(Foo), Some(FooFactory))], made := 1, calls := [IBar, IFoo]);
    assert ResolveIn(s1, IFoo, {IBar}) == Done(Some(Foo), s2);
    assert ResolveAll(s2, [IFoo][1..], {IBar}) == Done([], s2);
    assert [Some(Foo)] + [] == [Some(Foo)];
    assert ResolveAll(s1, [IFoo], {IBar}) == Done([Some(Foo)], s2);
  }

  /** The example program: `IFoo` bound to a deferred factory, then a module
      whose `load()` binds `IBar` to a factory resolving `IFoo`. Resolving
      `IFoo` and then `IBar` gives a bar holding the very foo the registry
      cached, and each factory ran once. */
  lemma ModuleScenario(s0: Registry<Ifc>)
    requires s0 == Create<Ifc>()
    ensures var s1 := ToFactory(Bind(s0, IFoo), s0, Some(FooFactory));
            var s2 := Add(Interfaces(s1), [BarModule]);
            && s2.Done?
            && var foo := Resolve(s2.after, IFoo);
               && foo.Done? && foo.value == Some(Foo)
               && var bar := Resolve(foo.after, IBar);
                  && bar.Done? && bar.value == Some(Bar)
                  && Bar.deps == [foo.value]
                  && bar.after.calls == [IFoo, IBar]
  {
    ExampleBinds(s0);
    ExampleResolves(BothBound());
  }

  /** The example's binds: `IFoo` directly, then `IBar` through the module. */
  lemma ExampleBinds(s0: Registry<Ifc>)
    requires s0 == Create<Ifc>()
    ensures Add(Interfaces(ToFactory(Bind(s0, IFoo), s0, Some(FooFactory))), [BarModule]) == Done([[None]], BothBound())
  {
    var t, t2 := FooBound(), BothBound();
    assert Interfaces(ToFactory(Bind(s0, IFoo), s0, Some(FooFactory))) == t;
    BarModuleBindsBar(t, t2);
  }

  /** The example's resolves, `IFoo` and then `IBar`, once both are bound. */
  lemma ExampleResolves(t2: Registry<Ifc>)
    requires t2 == BothBound()
    ensures var foo := Resolve(t2, IFoo);
            && foo.Done? && foo.value == Some(Foo)
            && var bar := Resolve(foo.after, IBar);
               && bar.Done? && bar.value == Some(Bar)
               && bar.after.calls == [IFoo, IBar]
  {
    ExampleResolvesFoo(t2);
    ExampleResolvesBar(FooMade());
  }

  /** The registry once the example has resolved `IFoo`. */
  function FooMade(): Registry<Ifc>
  {
    Registry(map[IFoo := Slot(Some(Foo), Some(FooFactory)), IBar := Slot(None, Some(BarFactory))], 1, [IFoo], true)
  }

  lemma ExampleResolvesFoo(t2: Registry<Ifc>)
    requires t2 == BothBound()
    ensures Resolve(t2, IFoo) == Done(Some(Foo), FooMade())
  {
    FooResolves(t2, {});
    assert t2.slots[IFoo := Slot(Some(Foo), Some(FooFactory))] == FooMade().slots;
    assert Resolve(t2, IFoo) == ResolveIn(t2, IFoo, {});
  }

  lemma ExampleResolvesBar(s3: Registry<Ifc>)
    requires s3 == FooMade()
    ensures var bar := Resolve(s3, IBar);
            && bar.Done? && bar.value == Some(Bar)
            && bar.after.calls == [IFoo, IBar]
  {
    BarResolves(s3);
  }

  /** `IFoo` bound by `to(nullptr)` and `IBar` to its factory: resolving
      `IBar` throws out of the factory's nested `resolve<IFoo>()`, so no bar
      is built, `IBar` stays empty and nothing is made. */
  lemma NullFooAbandonsBar(s0: Registry<Ifc>)
    requires s0 == Create<Ifc>()
    ensures var s1 := ToInstance(Bind(s0, IFoo), s0, None);
            var s := ToFactory(Bind(s1, IBar), s1, Some(BarFactory));
            var o := Resolve(s, IBar);
            && o.Throws?
            && o.after.slots[IBar] == Slot(None, Some(BarFactory))
            && o.after.made == 0
            && o.after.calls == [IBar]
  {
    var s1 := ToInstance(Bind(s0, IFoo), s0, None);
    var s := ToFactory(Bind(s1, IBar), s1, Some(BarFactory));
    NullDependencyAbandonsFactory(s, IBar, BarFactory, 0);
  }

  /** The second module of the chain: bind `IBar`, then resolve the `IFoo`
      bound by the first module, then resolve `IBar`, which is built on that
      same foo. */
  lemma SecondModuleLoads(t: Registry<Ifc>, t2: Registry<Ifc>, m2: seq<Step<Ifc>>)
    requires t == FooBound() && t2 == BothBound() && m2 == BarModule + [Fetch(IFoo), Fetch(IBar)]
    ensures var o := Load(t, m2);
            o.Done? && o.value == [None, Some(Foo), Some(Bar)]
  {
    assert m2[0] == BindTo(IBar, Deferred(Some(BarFactory))) && m2[1..] == [Fetch(IFoo), Fetch(IBar)];
    assert Perform(t, m2[0]) == Done(None, t2);
    var u := FetchFooThenBarLoads(t2, FooMade());
    assert Load(t, m2) == Done([None] + [Some(Foo), Some(Bar)], u);
  }

  /** Resolving `IFoo` and then `IBar` from a module, on the registry where
      both are bound and nothing is made yet. */
  lemma FetchFooThenBarLoads(t2: Registry<Ifc>, s3: Registry<Ifc>) returns (u: Registry<Ifc>)
    requires t2 == BothBound() && s3 == FooMade()
    ensures Load(t2, [Fetch(IFoo), Fetch(IBar)]) == Done([Some(Foo), Some(Bar)], u)
  {
    ExampleResolvesFoo(t2);
    LoadSingle(t2, Fetch(IFoo));
    ExampleResolvesBar(s3);
    u := Resolve(s3, IBar).after;
    LoadSingle(s3, Fetch(IBar));
    LoadInCallOrder(t2, [Fetch(IFoo)], [Fetch(IBar)]);
    Pair(Fetch(IFoo), Fetch(IBar));
    Pair(Some(Foo), Some(Bar));
  }

  lemma Pair<T>(a: T, b: T)
    ensures [a] + [b] == [a, b]
  {
  }

  lemma FetchBarLoads(t2: Registry<Ifc>)
    requires t2 == BothBound()
    ensures var o := Resolve(t2, IBar);
            && o.Done? && o.value == Some(Bar)
            && Load(t2, [Fetch(IBar)]) == Done([Some(Bar)], o.after)
  {
    BarResolvesFoo(t2);
    LoadSingle(t2, Fetch(IBar));
  }

  /** Two modules chained with `add`: the Foo module, then the Bar module
      extended with two resolves through an outside handle. The second
      module's `load()` resolves the `IFoo` bound by the first module and
      gets a foo, then resolves `IBar` and gets a bar built on that foo. */
  lemma ChainedModulesScenario(s: Registry<Ifc>, m1: seq<Step<Ifc>>, m2: seq<Step<Ifc>>)
    requires s == Interfaces(Create<Ifc>())
    requires m1 == FooModule && m2 == BarModule + [Fetch(IFoo), Fetch(IBar)]
    ensures var r := Add(s, [m1, m2]);
            && r.Done?
            && r.value[1] == [None, Some(Foo), Some(Bar)]
  {
    var t := FooBound();
    FooModuleBindsFoo(s, t);
    var t2 := BothBound();
    SecondModuleLoads(t, t2, m2);
    var o := Load(t, m2);
    AddSingle(t, m2);
    assert Add(t, [m2]) == Done([o.value], o.after);
    assert [m1, m2][0] == m1 && [m1, m2][1..] == [m2];
    assert Add(s, [m1, m2]) == Done([[None]] + [o.value], o.after);
  }
}
